=== FILE: README.md ===
# classify-core, modelled in Dafny

This project models the core of *classify*, a library that runs code from an isolated
module. That module's classes come from a chosen slice of the JVM class path, so
its dependencies cannot clash with those of the host application. The core has four
parts:

- **`DependencyFilter`** (`dependency_filter.dfy`) reads a manifest of
  `artifactId|jarName` lines into a map from jar name to dependency id. As a filter
  over class-path locations, it keeps every directory and every jar named in the
  manifest.
- **`ClassPathProvider`** (`class_path_provider.dfy`) has two sources of class-path
  locations:
  - `SelfSource` gives the one code-source location of a class.
  - `FilteredClassPaths` gives the JVM class path, narrowed by a filter and sorted by
    a comparator. The default comparator is the natural path order.
- **`SafeClassLoader`** (`safe_class_loader.dfy`) is a parent-last class loader:
  - Names listed as parent-only go to the parent alone.
  - Every other name is looked up locally first: among the classes this loader has
    already loaded, then in the bootstrap loader, then in its own URLs. It reaches
    the parent only when that lookup reports `ClassNotFoundException`.
  - Its constructors concatenate the providers' class paths.
- **`SafeClassLoaderWrapper`** (`safe_class_loader_wrapper.dfy`) runs an operation
  with the wrapper's loader installed as the thread's context class loader, and then
  puts the previous loader back (`doSafely`). It also calls a static method through
  reflection inside such a scope (`callStatic`).
  - The thread is an explicit state record: its context loader, plus the per-wrapper
    `ThreadLocal` slots.
  - Nested and interleaved scopes are operations of a small evaluator, `Eval`.

The supporting modules cover the parts of Java that the core relies on:

- `java_strings.dfy`: `String.split` with its limit-0 trimming, and the code-point order
  of path strings.
- `sorting.dfy`: the `Comparator` contract, and a stable insertion sort standing in
  for `Stream.sorted`.
- `seqs.dfy`: `Stream.filter` as sequence filtering.
- `locations.dfy`: a path with its file name and directory flag, and its natural order.
- `wrappers.dfy`: `Option` and `Result`.

The model keeps four behaviours of the code that a reader might expect to be
otherwise:

1. A manifest that repeats a jar name makes construction fail. `toMap` is given no
   merge function, so a later line does not simply win.
2. The `loadClass` override adds no cache of its own, and no negative result is kept
   anywhere: a name that was not found is asked of the tiers again on every call. The
   record of classes the loader has already loaded belongs to the local tier, so it
   is part of the local-tier function.
3. An exception thrown by the method that `callStatic` invokes reaches the caller
   still wrapped in `InvocationTargetException`.
4. Each wrapper keeps the loader it replaced in a single `ThreadLocal` slot, not a
   stack. Scopes of different wrappers nest correctly. Re-entering a wrapper while its
   own loader is installed overwrites that slot with that loader, so the outer scope
   exits with the wrapper's loader still installed. `ReentryKeepsWrapperLoader` proves
   this for a directly nested scope, and `CallbackIntoSameWrapper` proves it for a
   `callStatic` whose method calls back into the same wrapper. A re-entry after the
   body has put the caller's loader back restores that loader.
   `EvalStacked` is a stack-discipline evaluator, in which each `doSafely` keeps
   the loader it replaced in a value of its own. `AgreesWithStackedWithoutReentry`
   proves that the two agree whenever no wrapper is re-entered.

The filter also keeps duplicate class-path entries with their multiplicity. Nothing in
the code removes them.

## Model

| member | source | states |
|---|---|---|
| `JavaStrings.SplitSpec` | classify-core/src/main/java/ppanda/modular/classify/DependencyFilter.java:35 | `split` keeps a prefix of the pieces between delimiters and drops only empty pieces. When the delimiter occurs, no trailing empty field remains. A string without the delimiter is its own single field, even when it is empty. |
| `JavaStrings.JoinPieces` | classify-core/src/main/java/ppanda/modular/classify/DependencyFilter.java:35 | Joining the pieces of a line with the delimiter gives back the line, so splitting loses nothing but trailing empty fields. |
| `JavaStrings.PiecesJoin` | classify-core/src/main/java/ppanda/modular/classify/DependencyFilter.java:35 | Splitting a join of delimiter-free fields gives back those fields (the inverse round trip). |
| `DependencyFilter.ExtractDepsFollowLines` | classify-core/src/main/java/ppanda/modular/classify/DependencyFilter.java:32-36 | `extractDeps` gives one entry per manifest line, in file order. Each entry is the line's pieces between delimiters, minus exactly the trailing empty pieces: every dropped piece is empty and, when the line holds the delimiter, the last kept one is not. A line without the delimiter gives itself as its one field. Joining all the pieces gives back the line. |
| `DependencyFilter.FieldsByPieces` | classify-core/src/main/java/ppanda/modular/classify/DependencyFilter.java:35 | A line has a second field iff some piece after the first delimiter is non-empty. The first two fields are then the first two pieces, whatever follows. |
| `DependencyFilter.CollectLastStep` | classify-core/src/main/java/ppanda/modular/classify/DependencyFilter.java:27-28 | A successful collection added the last line's jar name, which no earlier line had, to the map of the earlier lines. |
| `DependencyFilter.CollectWellFormed` | classify-core/src/main/java/ppanda/modular/classify/DependencyFilter.java:27-28 | A successful collection saw only lines with two fields and pairwise distinct jar names. |
| `DependencyFilter.CollectEntries` | classify-core/src/main/java/ppanda/modular/classify/DependencyFilter.java:27-28 | Every line of a successful collection maps its jar name to its artifact id. |
| `DependencyFilter.CollectKeys` | classify-core/src/main/java/ppanda/modular/classify/DependencyFilter.java:27-28 | A successful collection has no key other than some line's jar name. |
| `DependencyFilter.CollectSuccess` | classify-core/src/main/java/ppanda/modular/classify/DependencyFilter.java:27-28 | When collecting succeeds, every line has two fields and the jar names are pairwise distinct. Each jar name maps to its line's artifact id, and the map has no other keys. |
| `DependencyFilter.CollectFailsAtFirstBadLine` | classify-core/src/main/java/ppanda/modular/classify/DependencyFilter.java:27-28 | Collecting fails at the first line that is bad, and every earlier line is well formed. A short line gives `MissingField`. A repeated jar name gives `DuplicateJar` with that name, which an earlier line also carries. |
| `DependencyFilter.CollectSucceedsIff` | classify-core/src/main/java/ppanda/modular/classify/DependencyFilter.java:27-28 | Collecting succeeds iff every line has a second field and no two lines share one. |
| `DependencyFilter.New` | classify-core/src/main/java/ppanda/modular/classify/DependencyFilter.java:25-29 | Construction succeeds iff the manifest is well formed. The map then sends each line's jar name to its artifact id, and holds only those jar names. |
| `DependencyFilter.Apply` | classify-core/src/main/java/ppanda/modular/classify/DependencyFilter.java:45-50 | A location is in the output iff it is in the input and is a directory or a jar the manifest names. Each kept location appears as often as in the input. |
| `DependencyFilter.ApplyKeepsOrder` | classify-core/src/main/java/ppanda/modular/classify/DependencyFilter.java:46-50 | The output is a subsequence of the input. It keeps exactly the passing positions, in increasing order. |
| `DependencyFilter.ApplyIdempotent` | classify-core/src/main/java/ppanda/modular/classify/DependencyFilter.java:46-50 | Filtering the output again changes nothing. |
| `DependencyFilter.DirectoriesAlwaysKept` | classify-core/src/main/java/ppanda/modular/classify/DependencyFilter.java:47-49 | Whatever the manifest says, the directories in the output are exactly those in the input, in order. |
| `DependencyFilter.ClassifiesByManifest` | classify-core/src/main/java/ppanda/modular/classify/DependencyFilter.java:25-50 | A filter built from a manifest keeps a jar iff some manifest line names its file as the second field. |
| `DependencyFilter.TwoFieldLine` | classify-core/src/main/java/ppanda/modular/classify/DependencyFilter.java:35 | A line made of `a`, the delimiter and a non-empty `b` splits into exactly `a` and `b`. |
| `DependencyFilter.ExtraFieldsIgnored` | classify-core/src/main/java/ppanda/modular/classify/DependencyFilter.java:27-35 | A third field does not change the first two, and so does not change the map entry. |
| `DependencyFilter.TooFewFields` | classify-core/src/main/java/ppanda/modular/classify/DependencyFilter.java:27-35 | An empty line, a line without a delimiter, and a line with an empty second field all have fewer than two fields. |
| `DependencyFilter.DuplicateJarRejected` | classify-core/src/main/java/ppanda/modular/classify/DependencyFilter.java:27-28 | Two lines with the same jar name make construction fail at the second line, even when their artifact ids differ. |
| `DependencyFilter.OneLineManifest` | classify-core/src/main/java/ppanda/modular/classify/DependencyFilter.java:25-36 | A one-line manifest maps the line's jar name to its artifact id, and nothing else. |
| `DependencyFilter.SingleEntryManifestParses` | classify-core/src/main/java/ppanda/modular/classify/DependencyFilter.java:25-36 | The one-line manifest with artifact id `libX` and jar `libx-1.2.jar` yields the map `libx-1.2.jar -> libX`. |
| `DependencyFilter.SingleEntryManifestFilters` | classify-core/src/main/java/ppanda/modular/classify/DependencyFilter.java:46-50 | With that map, a directory and the named jar are kept and an unrelated jar is dropped. |
| `Seqs.FilterMultiplicity` | classify-core/src/main/java/ppanda/modular/classify/DependencyFilter.java:47-49 | A stream filter keeps a passing element exactly as often as it occurs, and drops a failing one entirely. |
| `JavaStrings.CompareLexAntisymmetric` | classify-core/src/main/java/ppanda/modular/classify/utils/ClassPathProvider.java:61 | Swapping the operands of the natural path order negates the result. |
| `JavaStrings.CompareLexZero` | classify-core/src/main/java/ppanda/modular/classify/utils/ClassPathProvider.java:61 | Only equal paths compare as zero. |
| `JavaStrings.CompareLexTransitive` | classify-core/src/main/java/ppanda/modular/classify/utils/ClassPathProvider.java:61 | Being greater in the natural path order is transitive. |
| `Locations.NaturalOrderIsComparator` | classify-core/src/main/java/ppanda/modular/classify/utils/ClassPathProvider.java:61 | The default comparator keeps the `Comparator` contract. |
| `Sorting.Sort` | classify-core/src/main/java/ppanda/modular/classify/utils/ClassPathProvider.java:73 | Sorting the stream is a permutation: each element keeps its multiplicity. |
| `Sorting.SortSorted` | classify-core/src/main/java/ppanda/modular/classify/utils/ClassPathProvider.java:73 | For any comparator that keeps the `Comparator` contract, the sorted stream is ordered by it. |
| `ClassPathProvider.FilterOnly` | classify-core/src/main/java/ppanda/modular/classify/utils/ClassPathProvider.java:56-61 | A provider given only a filter compares locations in natural path order. |
| `ClassPathProvider.EntriesFollowClassPath` | classify-core/src/main/java/ppanda/modular/classify/utils/ClassPathProvider.java:65-71 | The entries are the resolved pieces of `java.class.path` between separators, minus exactly the trailing empty pieces: every dropped piece is empty and, when the property holds the separator, the last kept one is not. A property without the separator is one entry. The pieces join back to the property. |
| `ClassPathProvider.GetClassPath` | classify-core/src/main/java/ppanda/modular/classify/utils/ClassPathProvider.java:44-76 | A self source yields exactly its code-source location, and fails iff there is none. A filtered provider always yields the filter's output as a permutation, sorted by its comparator whenever that comparator keeps the contract. |
| `ClassPathProvider.DefaultOrderIsNatural` | classify-core/src/main/java/ppanda/modular/classify/utils/ClassPathProvider.java:61-73 | With only a filter given, the class path comes out in natural path order. |
| `ClassPathProvider.ManifestFilteredClassPath` | classify-core/src/main/java/ppanda/modular/classify/utils/ClassPathProvider.java:72-73 | Filtering by a manifest yields every directory and named jar of the JVM class path, with its multiplicity, and nothing else. |
| `SafeClassLoader.LoadClass` | classify-core/src/main/java/ppanda/modular/classify/SafeClassLoader.java:40-50 | One or two tiers are asked, and the answer is the last one's. The local tier is asked iff the name is not parent-only, and then first. The parent is asked iff the name is parent-only or the local tier did not find it. |
| `SafeClassLoader.ParentOnlyIgnoresLocal` | classify-core/src/main/java/ppanda/modular/classify/SafeClassLoader.java:42-44 | A parent-only name gets the parent's answer, and the loader's own URLs cannot change it. |
| `SafeClassLoader.LocalShadowsParent` | classify-core/src/main/java/ppanda/modular/classify/SafeClassLoader.java:45-46 | A name the local tier resolves, or fails on with another error, gets the local answer, and the parent is not asked. |
| `SafeClassLoader.NotFoundIffBothTiersMiss` | classify-core/src/main/java/ppanda/modular/classify/SafeClassLoader.java:45-49 | For a name that is not parent-only, `ClassNotFoundException` results iff both tiers miss. A local miss falls through to the parent's answer. |
| `SafeClassLoader.SharedContractComesFromParent` | classify-core/src/main/java/ppanda/modular/classify/SafeClassLoader.java:41-44 | A parent-only contract type resolves to the parent's class even when the loader's URLs define another class of that name. |
| `SafeClassLoader.FromUrls` | classify-core/src/main/java/ppanda/modular/classify/SafeClassLoader.java:19-23 | The loader keeps its URLs and parent. Its local tier is the `URLClassLoader` lookup over its own URLs with a `null` parent: already-loaded classes, then the bootstrap loader, then the URLs. Exactly the streamed names are parent-only. |
| `SafeClassLoader.ParentOnlyStreamIsASet` | classify-core/src/main/java/ppanda/modular/classify/SafeClassLoader.java:22 | Only which names occur in the parent-only stream matters, not their order or repetition. |
| `SafeClassLoader.ProvidersClassPath` | classify-core/src/main/java/ppanda/modular/classify/SafeClassLoader.java:27-30 | Collecting the providers' class paths succeeds iff every provider succeeds. |
| `SafeClassLoader.ProvidersClassPathAppend` | classify-core/src/main/java/ppanda/modular/classify/SafeClassLoader.java:27-30 | The URLs of two provider lists in a row are the first list's URLs followed by the second's. |
| `SafeClassLoader.SingleProviderClassPath` | classify-core/src/main/java/ppanda/modular/classify/SafeClassLoader.java:27-30 | A single provider contributes exactly its own class path, or its failure. |
| `SafeClassLoader.FromProviders` | classify-core/src/main/java/ppanda/modular/classify/SafeClassLoader.java:25-34 | Construction from providers succeeds iff every provider does. The URLs are then their class paths in argument order, and the parent is the context loader at construction time. |
| `SafeClassLoader.FromProvidersOnly` | classify-core/src/main/java/ppanda/modular/classify/SafeClassLoader.java:36-38 | Without parent-only names, every name is looked up locally first. |
| `SafeClassLoaderWrapper.Enter` | classify-core/src/main/java/ppanda/modular/classify/SafeClassLoaderWrapper.java:16-18 | Entering a scope saves the current context loader in the wrapper's slot, installs the wrapper's loader, and leaves every other slot as it was. |
| `SafeClassLoaderWrapper.Eval` | classify-core/src/main/java/ppanda/modular/classify/SafeClassLoaderWrapper.java:15-23 | Running an operation never removes a saved slot, so every scope exit finds some value in its wrapper's slot. |
| `SafeClassLoaderWrapper.SlotUntouched` | classify-core/src/main/java/ppanda/modular/classify/SafeClassLoaderWrapper.java:12-22 | An operation that never enters a wrapper leaves that wrapper's slot as it found it. |
| `SafeClassLoaderWrapper.DoSafelyRestores` | classify-core/src/main/java/ppanda/modular/classify/SafeClassLoaderWrapper.java:15-23 | When the body does not re-enter the same wrapper, `doSafely` restores the context loader it found and passes on the body's outcome, whether the body returned or threw. This holds at any nesting depth of other wrappers. |
| `SafeClassLoaderWrapper.BodySeesWrapperLoader` | classify-core/src/main/java/ppanda/modular/classify/SafeClassLoaderWrapper.java:18-19 | The operation runs with the wrapper's loader as context loader. |
| `SafeClassLoaderWrapper.ThrowRestores` | classify-core/src/main/java/ppanda/modular/classify/SafeClassLoaderWrapper.java:17-22 | An exception from the operation leaves `doSafely` unchanged, after the context loader has been restored. |
| `SafeClassLoaderWrapper.NestedDistinctWrappers` | classify-core/src/main/java/ppanda/modular/classify/SafeClassLoaderWrapper.java:15-23 | With two different wrappers nested, the inner exit reinstalls the outer wrapper's loader, and the outer exit reinstalls the original one. |
| `SafeClassLoaderWrapper.ReentryKeepsWrapperLoader` | classify-core/src/main/java/ppanda/modular/classify/SafeClassLoaderWrapper.java:12-22 | Directly nested re-entry of the same wrapper, made while its loader is installed, leaves that loader installed after the outer exit, so the loader found before is not restored. |
| `SafeClassLoaderWrapper.AgreesWithStackedWithoutReentry` | classify-core/src/main/java/ppanda/modular/classify/SafeClassLoaderWrapper.java:15-23 | Without re-entry, the single-slot code and the stack-discipline evaluator agree on outcome and final context loader. |
| `SafeClassLoaderWrapper.ReentryDivergesFromStacked` | classify-core/src/main/java/ppanda/modular/classify/SafeClassLoaderWrapper.java:12-22 | With directly nested re-entry, made while the wrapper's loader is installed, for any body that does not enter the wrapper again, they disagree whenever the previous loader differs from the wrapper's. The single-slot code ends with the wrapper's loader, and the stack discipline ends with the previous one. |
| `SafeClassLoaderWrapper.CallStatic` | classify-core/src/main/java/ppanda/modular/classify/SafeClassLoaderWrapper.java:26-37 | The caller's context loader is restored. A missing class, a failing class load, a missing method, a failing method lookup or a failure of `invoke` itself is reported as such. Otherwise the method runs with the wrapper's loader as context, and its result comes back, or its exception comes back wrapped. |
| `SafeClassLoaderWrapper.CallStaticByClass` | classify-core/src/main/java/ppanda/modular/classify/SafeClassLoaderWrapper.java:39-43 | The caller's context loader is restored. The class is looked up again by its name in the wrapper's loader, and the outcome is reported case by case as for `callStatic` by name. |
| `SafeClassLoaderWrapper.CallbackIntoSameWrapper` | classify-core/src/main/java/ppanda/modular/classify/SafeClassLoaderWrapper.java:15-30 | A `doSafely` body, such as the method that `callStatic` invokes, that calls back into the same wrapper after work that does not throw re-enters it while the wrapper's loader is installed. The caller's context loader is then not restored: the outer scope exits with the wrapper's loader. |

## Left out

- File and resource I/O are left out. `Files.readAllLines` becomes the list of manifest
  lines, and `fromResourceFile`, `getResource`, `toPath`, `getOrCreateFSProvider` and
  `createFs` are not modelled. These are file-system and resource lookups with no
  logic of the core. An unreadable manifest is likewise not modelled.
- The `dependencyFilePath` field is left out: it is stored but never read.
- `System.getProperty` under `AccessController`, `File.pathSeparator`,
  `Paths.get(..).toAbsolutePath()` and `Files.isDirectory` become parameters of a
  `Host` record.
  - The separator may be any character. `split` reads `File.pathSeparator` as a
    regular expression, which matches itself literally only for the platform values
    `:` and `;`. Other separators are not modelled.
  - A location carries its path, file name and directory flag as given.
  - An invalid path string (`InvalidPathException`) is not modelled.
- Conversion of paths to URLs (`toUri().toURL()`) is left out, and a URL is
  represented by its location. For `SelfSource`, the protection domain and code
  source become an optional location.
- The natural order of `Path` is modelled as the code-point order of the path strings.
  Its sign is that of Unix `Path.compareTo`, which compares UTF-8 bytes. Windows path
  comparison, which ignores case, is not modelled.
- ClassPathProvider.GetClassPath: does not state that the sort is stable. The sort is
  a stable insertion sort, like `Stream.sorted` on an ordered stream, but stability is
  not proved. For a comparator that breaks the `Comparator` contract, the model still
  returns a permutation. Java's sort may instead throw `IllegalArgumentException`
  ("Comparison method violates its general contract!"), and that failure is not
  modelled.
- The `URLClassLoader` lookup of the loader's own URLs is left out. Its already-loaded
  classes, the bootstrap loader, class definition and the `resolve` flag are a
  function parameter that answers with a class, `ClassNotFoundException` or another
  failure.
- The parent is likewise a function. A `null` parent or context loader (a
  `NullPointerException`) is not modelled.
- `SafeClassLoader.createWrapper` has no member of its own. It is the `Wrapper`
  constructor, with an `id` standing for the new object's identity.
- Concurrency is left out. One thread's state is modelled, and a `ThreadLocal` slot
  is a per-wrapper entry of that thread's state. Other threads have their own copy,
  which no operation here touches.
- `setContextClassLoader` failing with `SecurityException` is not modelled.
- Reflection is left out. `loadClass`, `getMethod` and `invoke` are function
  parameters. A failure of `invoke` itself is an opaque reason that reaches the caller
  unwrapped. Such failures include:
  - `NullPointerException` for an instance method called with a `null` receiver;
  - `ExceptionInInitializerError` from a failing static initializer;
  - `IllegalAccessException`;
  - `IllegalArgumentException`.
  Which of these occurs is not modelled, and neither is the unchecked cast of the
  result. Likewise, a failure of `getMethod` other than `NoSuchMethodException`
  (`NoClassDefFoundError` for a signature type the loader cannot find, or
  `SecurityException`) is an opaque reason that reaches the caller unwrapped; which
  one it is is not modelled.
- SafeClassLoaderWrapper.CallStatic: the invoked method is modelled as a function of
  the context loader that leaves the thread state alone, so the unconditional
  restoration in the contracts of `CallStatic` and `CallStaticByClass` covers only
  such methods. A method that calls back into the same wrapper is not covered by
  them. `CallbackIntoSameWrapper` states that case: the wrapper's loader stays
  installed.

=== FILE: class_path_provider.dfy ===
/** `ClassPathProvider` and its two implementations: `SelfSource`, the one location
    a class was loaded from, and `FilteredClassPaths`, the JVM's class path narrowed
    by an injected filter and ordered by an injected comparator. */
module ClassPathProvider {
  import opened Wrappers
  import opened Locations
  import JavaStrings
  import Sorting
  import DependencyFilter

  /** Why a provider produced no class path: the class has no `CodeSource`, so
      `getCodeSource().getLocation()` throws `NullPointerException`. */
  datatype ProviderError = NoCodeSource

  /** What the providers read from the running JVM: the `java.class.path` property,
      `File.pathSeparator`, and how one entry becomes a location (`Paths.get`, then
      `toAbsolutePath`, with the file system saying whether it is a directory). */
  datatype Host = Host(classPath: string, pathSeparator: char, resolve: string -> Location)

  datatype Provider =
      /** `self()` / `self(clazz)`: `codeSource` is the class's code-source location,
          `None` when the class has no code source. */
    | SelfSource(codeSource: Option<Location>)
      /** `filterBy(filter, comparator)`. */
    | FilteredClassPaths(filter: seq<Location> -> seq<Location>, comparator: (Location, Location) -> int)

  /** `new FilteredClassPaths(filter)`: only the filter is given, so the comparator
      keeps its initial value, the natural order of paths. */
  function FilterOnly(filter: seq<Location> -> seq<Location>): (p: Provider)
    ensures p.FilteredClassPaths? && p.filter == filter
    ensures forall a, b :: p.comparator(a, b) == JavaStrings.CompareLex(a.path, b.path)
  {
    FilteredClassPaths(filter, NaturalOrder)
  }

  /** The JVM class path split on the separator, each entry resolved, in order. */
  function ClassPathEntries(host: Host): (entries: seq<Location>)
    ensures var fields := JavaStrings.Split(host.classPath, host.pathSeparator);
      |entries| == |fields| && forall i :: 0 <= i < |fields| ==> entries[i] == host.resolve(fields[i])
  {
    var fields := JavaStrings.Split(host.classPath, host.pathSeparator);
    seq(|fields|, i requires 0 <= i < |fields| => host.resolve(fields[i]))
  }

  /** The entries are the pieces of the class-path string between separators, in
      the order they occur in it: a prefix of those pieces that leaves out exactly
      the trailing empty ones, while joining all pieces gives back the property. A
      class path without the separator is a single entry. */
  lemma EntriesFollowClassPath(host: Host)
    ensures var pieces := JavaStrings.Pieces(host.classPath, host.pathSeparator);
      var entries := ClassPathEntries(host);
      && JavaStrings.Join(pieces, host.pathSeparator) == host.classPath
      && |entries| <= |pieces|
      && (forall i :: 0 <= i < |entries| ==> entries[i] == host.resolve(pieces[i]))
      && (forall i :: |entries| <= i < |pieces| ==> pieces[i] == "")
      && (host.pathSeparator in host.classPath && |entries| > 0 ==> pieces[|entries| - 1] != "")
      && (host.pathSeparator !in host.classPath ==> entries == [host.resolve(host.classPath)])
  {
    JavaStrings.SplitSpec(host.classPath, host.pathSeparator);
    JavaStrings.JoinPieces(host.classPath, host.pathSeparator);
  }

  /** `getClassPath()`. A self source yields its single code-source location, or
      fails without one. A filtered provider yields the filter's output, every
      element with its multiplicity, sorted by its comparator whenever that keeps
      the `Comparator` contract. */
  function GetClassPath(p: Provider, host: Host): (r: Result<seq<Location>, ProviderError>)
    ensures p.SelfSource? ==> (r.Success? <==> p.codeSource.Some?)
    ensures p.SelfSource? && r.Success? ==> |r.value| == 1 && r.value[0] == p.codeSource.value
    ensures p.FilteredClassPaths? ==> r.Success?
    ensures p.FilteredClassPaths? ==>
      multiset(r.value) == multiset(p.filter(ClassPathEntries(host)))
    ensures p.FilteredClassPaths? && Sorting.IsComparator(p.comparator) ==>
      Sorting.Sorted(r.value, p.comparator)
  {
    match p
    case SelfSource(codeSource) =>
      if codeSource.None? then Failure(NoCodeSource) else Success([codeSource.value])
    case FilteredClassPaths(filter, comparator) =>
      var kept := filter(ClassPathEntries(host));
      assert Sorting.IsComparator(comparator) ==> Sorting.Sorted(Sorting.Sort(kept, comparator), comparator) by {
        if Sorting.IsComparator(comparator) {
          Sorting.SortSorted(kept, comparator);
        }
      }
      Success(Sorting.Sort(kept, comparator))
  }

  /** With only a filter given, the class path comes out in natural path order. */
  lemma DefaultOrderIsNatural(filter: seq<Location> -> seq<Location>, host: Host)
    ensures var r := GetClassPath(FilterOnly(filter), host);
      && r.Success?
      && forall i, j :: 0 <= i < j < |r.value| ==>
           JavaStrings.CompareLex(r.value[i].path, r.value[j].path) <= 0
  {
    NaturalOrderIsComparator();
  }

  /** The class path of `filterBy(dependencyFilter, comparator)`: each JVM class-path
      entry that is a directory or a jar named in the manifest, with its number of
      occurrences, and nothing else. */
  lemma ManifestFilteredClassPath(
    f: DependencyFilter.DependencyFilter, comparator: (Location, Location) -> int, host: Host, l: Location)
    ensures var r := GetClassPath(FilteredClassPaths(xs => DependencyFilter.Apply(f, xs), comparator), host);
      && r.Success?
      && multiset(r.value)[l] ==
           if l.isDirectory || l.fileName in f.jarToDep then multiset(ClassPathEntries(host))[l] else 0
  {
  }
}

=== FILE: dependency_filter.dfy ===
/** `DependencyFilter`: the manifest classifier. The manifest's lines (one
    `artifactId|jarName` entry each) become a map from jar file name to dependency
    id; the filter then keeps a class-path location iff it is a directory or its
    file name is a key of that map. */
module DependencyFilter {
  import opened Wrappers
  import opened Seqs
  import opened Locations
  import JavaStrings

  /** The manifest's field delimiter; the source splits on the regex `\|`. */
  const Delimiter: char := '|'

  /** Why building the jar-to-dependency map failed, with the index of the line
      that the stream was processing when it threw. */
  datatype ManifestError =
      /** The line split into fewer than two fields, so reading the second field
          throws `ArrayIndexOutOfBoundsException`. */
    | MissingField(line: nat)
      /** The line's jar name is already a key: `toMap` without a merge function
          throws `IllegalStateException`. */
    | DuplicateJar(line: nat, jarName: string)

  /** The constructed filter; its map is fixed once built. */
  datatype DependencyFilter = DependencyFilter(jarToDep: map<string, string>)

  /** The fields of one manifest line: `line.split("\\|")`. */
  function Fields(line: string): seq<string>
  {
    JavaStrings.Split(line, Delimiter)
  }

  /** `extractDeps`: every line split into its fields, in file order. */
  function ExtractDeps(lines: seq<string>): (deps: seq<seq<string>>)
    ensures |deps| == |lines|
    ensures forall i :: 0 <= i < |lines| ==> deps[i] == Fields(lines[i])
  {
    seq(|lines|, i requires 0 <= i < |lines| => Fields(lines[i]))
  }

  /** What `extractDeps` hands on of each line: its pieces between delimiters, in
      order, minus exactly the trailing empty pieces, where joining all the pieces
      gives back the line. So no text of a line is lost but empty trailing fields;
      a line without the delimiter is passed on whole. */
  lemma ExtractDepsFollowLines(lines: seq<string>)
    ensures |ExtractDeps(lines)| == |lines|
    ensures forall i :: 0 <= i < |lines| ==>
      var pieces := JavaStrings.Pieces(lines[i], Delimiter);
      && JavaStrings.Join(pieces, Delimiter) == lines[i]
      && |ExtractDeps(lines)[i]| <= |pieces|
      && ExtractDeps(lines)[i] == pieces[..|ExtractDeps(lines)[i]|]
      && (forall j :: |ExtractDeps(lines)[i]| <= j < |pieces| ==> pieces[j] == "")
      && (Delimiter in lines[i] && |ExtractDeps(lines)[i]| > 0 ==>
            ExtractDeps(lines)[i][|ExtractDeps(lines)[i]| - 1] != "")
      && (Delimiter !in lines[i] ==> ExtractDeps(lines)[i] == [lines[i]])
  {
    forall i | 0 <= i < |lines|
      ensures var pieces := JavaStrings.Pieces(lines[i], Delimiter);
        && JavaStrings.Join(pieces, Delimiter) == lines[i]
        && |ExtractDeps(lines)[i]| <= |pieces|
        && ExtractDeps(lines)[i] == pieces[..|ExtractDeps(lines)[i]|]
        && (forall j :: |ExtractDeps(lines)[i]| <= j < |pieces| ==> pieces[j] == "")
        && (Delimiter in lines[i] && |ExtractDeps(lines)[i]| > 0 ==>
              ExtractDeps(lines)[i][|ExtractDeps(lines)[i]| - 1] != "")
        && (Delimiter !in lines[i] ==> ExtractDeps(lines)[i] == [lines[i]])
    {
      JavaStrings.SplitSpec(lines[i], Delimiter);
      JavaStrings.JoinPieces(lines[i], Delimiter);
    }
  }

  /** A line's fields stated against the raw pieces between delimiters: a line has a
      second field iff some piece after the first is non-empty, and then its first
      two fields are the first two pieces, whatever follows. */
  lemma FieldsByPieces(line: string)
    ensures var pieces := JavaStrings.Pieces(line, Delimiter);
      |Fields(line)| >= 2 <==> exists i :: 1 <= i < |pieces| && pieces[i] != ""
    ensures var pieces := JavaStrings.Pieces(line, Delimiter);
      |Fields(line)| >= 2 ==>
        |pieces| >= 2 && Fields(line)[0] == pieces[0] && Fields(line)[1] == pieces[1]
  {
    var fields := Fields(line);
    var pieces := JavaStrings.Pieces(line, Delimiter);
    JavaStrings.SplitSpec(line, Delimiter);
    if Delimiter !in line {
      JavaStrings.PiecesWithoutSeparator(line, Delimiter);
    }
    if |fields| >= 2 {
      assert pieces[|fields| - 1] != "";
    }
  }

  /** Every split line has a second field and no two share one. */
  ghost predicate WellFormed(deps: seq<seq<string>>) {
    && (forall i :: 0 <= i < |deps| ==> |deps[i]| >= 2)
    && (forall i, j :: 0 <= i < j < |deps| ==> deps[i][1] != deps[j][1])
  }

  /** `collect(toMap(d -> d[1], d -> d[0]))` over the split lines, in line order: the
      first line without a second field, or whose second field repeats an earlier
      one, ends construction with an error naming that line. */
  function Collect(deps: seq<seq<string>>): (r: Result<map<string, string>, ManifestError>)
    ensures r.Failure? ==> r.error.line < |deps|
  {
    if |deps| == 0 then Success(map[])
    else
      var n := |deps| - 1;
      match Collect(deps[..n])
      case Failure(e) => Failure(e)
      case Success(m) =>
        var d := deps[n];
        if |d| < 2 then Failure(MissingField(n))
        else if d[1] in m then Failure(DuplicateJar(n, d[1]))
        else Success(m[d[1] := d[0]])
  }

  /** One successful step of `Collect`: the lines before the last were collected
      into a map that lacks the last line's jar name, which the step then adds. */
  lemma CollectLastStep(deps: seq<seq<string>>)
    requires |deps| > 0 && Collect(deps).Success?
    ensures var n := |deps| - 1;
      && Collect(deps[..n]).Success?
      && |deps[n]| >= 2
      && deps[n][1] !in Collect(deps[..n]).value
      && Collect(deps).value == Collect(deps[..n]).value[deps[n][1] := deps[n][0]]
  {
  }

  /** A successful collection saw only well-formed lines. */
  lemma {:induction false} CollectWellFormed(deps: seq<seq<string>>)
    requires Collect(deps).Success?
    ensures WellFormed(deps)
  {
    if |deps| > 0 {
      var n := |deps| - 1;
      var earlier := deps[..n];
      CollectLastStep(deps);
      CollectWellFormed(earlier);
      CollectEntries(earlier);
      var m0 := Collect(earlier).value;
      forall i | 0 <= i < n
        ensures deps[i] == earlier[i] && deps[i][1] != deps[n][1]
      {
        assert earlier[i][1] in m0;
      }
    }
  }

  /** Every line `a|b` of a successful collection contributed `b ↦ a`. */
  lemma {:induction false} CollectEntries(deps: seq<seq<string>>)
    requires Collect(deps).Success?
    ensures forall i :: 0 <= i < |deps| ==>
      |deps[i]| >= 2 && deps[i][1] in Collect(deps).value && Collect(deps).value[deps[i][1]] == deps[i][0]
  {
    if |deps| > 0 {
      var n := |deps| - 1;
      var earlier := deps[..n];
      CollectLastStep(deps);
      CollectEntries(earlier);
      forall i | 0 <= i < n
        ensures deps[i] == earlier[i]
      {
      }
    }
  }

  /** A successful collection holds no key but the lines' second fields. */
  lemma {:induction false} CollectKeys(deps: seq<seq<string>>)
    requires Collect(deps).Success?
    ensures forall k :: k in Collect(deps).value ==> exists i :: 0 <= i < |deps| && |deps[i]| >= 2 && deps[i][1] == k
  {
    if |deps| > 0 {
      var n := |deps| - 1;
      var earlier := deps[..n];
      CollectLastStep(deps);
      CollectKeys(earlier);
      forall k | k in Collect(deps).value
        ensures exists i :: 0 <= i < |deps| && |deps[i]| >= 2 && deps[i][1] == k
      {
        if k != deps[n][1] {
          var i :| 0 <= i < n && |earlier[i]| >= 2 && earlier[i][1] == k;
          assert deps[i] == earlier[i];
        }
      }
    }
  }

  /** On success the split lines are well formed, every line `a|b` contributed
      `b ↦ a`, and the map holds nothing else. */
  lemma CollectSuccess(deps: seq<seq<string>>)
    requires Collect(deps).Success?
    ensures WellFormed(deps)
    ensures forall i :: 0 <= i < |deps| ==>
      deps[i][1] in Collect(deps).value && Collect(deps).value[deps[i][1]] == deps[i][0]
    ensures forall k :: k in Collect(deps).value ==> exists i :: 0 <= i < |deps| && deps[i][1] == k
  {
    CollectWellFormed(deps);
    CollectEntries(deps);
    CollectKeys(deps);
  }

  /** A failure names the first offending line: every earlier line is well formed
      and fresh, and the named line either lacks a second field or repeats the
      second field of an earlier one. */
  lemma {:induction false} CollectFailsAtFirstBadLine(deps: seq<seq<string>>)
    requires Collect(deps).Failure?
    ensures var e := Collect(deps).error;
      && WellFormed(deps[..e.line])
      && (e.MissingField? ==> |deps[e.line]| < 2)
      && (e.DuplicateJar? ==>
            && |deps[e.line]| >= 2 && deps[e.line][1] == e.jarName
            && exists j :: 0 <= j < e.line && deps[j][1] == e.jarName)
  {
    var n := |deps| - 1;
    var earlier := deps[..n];
    if Collect(earlier).Failure? {
      CollectFailsAtFirstBadLine(earlier);
      var e := Collect(earlier).error;
      assert Collect(deps) == Collect(earlier);
      assert deps[..e.line] == earlier[..e.line];
      assert forall j :: 0 <= j < e.line ==> deps[j] == earlier[j];
    } else {
      CollectSuccess(earlier);
      assert deps[..n] == earlier;
      var e := Collect(deps).error;
      if e.DuplicateJar? {
        var j :| 0 <= j < |earlier| && earlier[j][1] == deps[n][1];
        assert earlier[j] == deps[j];
      }
    }
  }

  /** Construction succeeds exactly when the split lines are well formed. */
  lemma {:induction false} CollectSucceedsIff(deps: seq<seq<string>>)
    ensures Collect(deps).Success? <==> WellFormed(deps)
  {
    if Collect(deps).Success? {
      CollectSuccess(deps);
    } else {
      CollectFailsAtFirstBadLine(deps);
      var e := Collect(deps).error;
      var i := e.line;
      if e.DuplicateJar? {
        var j :| 0 <= j < i && deps[j][1] == e.jarName;
        assert deps[j][1] == deps[i][1];
      }
    }
  }

  /** `new DependencyFilter(path)` after `Files.readAllLines(path)` produced `lines`:
      it succeeds iff every line has a second field and no two lines share one,
      and then the map's keys are exactly those second fields. */
  function New(lines: seq<string>): (r: Result<DependencyFilter, ManifestError>)
    ensures r.Success? <==> WellFormed(ExtractDeps(lines))
    ensures r.Success? ==> forall i :: 0 <= i < |lines| ==>
      Fields(lines[i])[1] in r.value.jarToDep && r.value.jarToDep[Fields(lines[i])[1]] == Fields(lines[i])[0]
    ensures r.Success? ==> forall jar :: jar in r.value.jarToDep ==>
      exists i :: 0 <= i < |lines| && Fields(lines[i])[1] == jar
  {
    var deps := ExtractDeps(lines);
    CollectSucceedsIff(deps);
    assert Collect(deps).Success? ==> forall jar :: jar in Collect(deps).value ==>
      exists i :: 0 <= i < |deps| && deps[i][1] == jar by {
      if Collect(deps).Success? {
        CollectSuccess(deps);
      }
    }
    var m :- Collect(deps);
    CollectSuccess(deps);
    Success(DependencyFilter(m))
  }

  /** The per-location test of `apply`: directories always pass; any other location
      passes iff its file name is a known jar. */
  predicate Keeps(f: DependencyFilter, p: Location) {
    p.isDirectory || p.fileName in f.jarToDep
  }

  /** `Keeps` as the predicate handed to the stream's `filter`. */
  function KeepTest(f: DependencyFilter): Location -> bool {
    p => Keeps(f, p)
  }

  predicate IsDirectory(p: Location) {
    p.isDirectory
  }

  /** `apply`: the candidate locations the filter keeps, in their input order,
      each with its input multiplicity. */
  function Apply(f: DependencyFilter, paths: seq<Location>): (r: seq<Location>)
    ensures forall p :: p in r <==> p in paths && (p.isDirectory || p.fileName in f.jarToDep)
    ensures forall p :: multiset(r)[p] ==
                        if p.isDirectory || p.fileName in f.jarToDep then multiset(paths)[p] else 0
  {
    var r := Filter(KeepTest(f), paths);
    assert forall p :: multiset(r)[p] == if Keeps(f, p) then multiset(paths)[p] else 0 by {
      forall p ensures multiset(r)[p] == if Keeps(f, p) then multiset(paths)[p] else 0 {
        FilterMultiplicity(KeepTest(f), paths, p);
      }
    }
    r
  }

  /** The result of `apply` is the input with some positions removed: the kept
      positions increase and cover exactly the locations that pass. */
  lemma ApplyKeepsOrder(f: DependencyFilter, paths: seq<Location>)
    ensures var idx := KeptPositions(KeepTest(f), paths, 0);
      && |idx| == |Apply(f, paths)|
      && (forall k :: 0 <= k < |idx| ==> idx[k] < |paths| && Apply(f, paths)[k] == paths[idx[k]])
      && (forall k, l :: 0 <= k < l < |idx| ==> idx[k] < idx[l])
      && (forall i :: 0 <= i < |paths| ==> (i in idx <==> Keeps(f, paths[i])))
  {
    KeptPositionsIncrease(KeepTest(f), paths, 0);
    KeptPositionsExact(KeepTest(f), paths, 0);
    KeptPositionsPick(KeepTest(f), paths, 0);
    assert paths[0..] == paths;
  }

  /** Applying the filter to its own output changes nothing. */
  lemma ApplyIdempotent(f: DependencyFilter, paths: seq<Location>)
    ensures Apply(f, Apply(f, paths)) == Apply(f, paths)
  {
    FilterIdempotent(KeepTest(f), paths);
  }

  /** Whatever the manifest says, the directories among the output are exactly
      the directories among the input, in the same order. */
  lemma DirectoriesAlwaysKept(f: DependencyFilter, paths: seq<Location>)
    ensures Filter(IsDirectory, Apply(f, paths)) == Filter(IsDirectory, paths)
  {
    FilterAbsorbed(KeepTest(f), IsDirectory, paths);
  }

  /** End to end: a filter built from `lines` keeps a non-directory location iff
      some manifest line has its file name as the second field. */
  lemma ClassifiesByManifest(lines: seq<string>, paths: seq<Location>, p: Location)
    requires New(lines).Success?
    requires p in paths && !p.isDirectory
    ensures p in Apply(New(lines).value, paths) <==>
      exists i :: 0 <= i < |lines| && Fields(lines[i])[1] == p.fileName
  {
  }

  /** A line `a|b` with a non-empty `b` has exactly the fields `a` and `b`. */
  lemma TwoFieldLine(a: string, b: string)
    requires Delimiter !in a && Delimiter !in b && b != ""
    ensures Fields(a + [Delimiter] + b) == [a, b]
  {
    var line := a + [Delimiter] + b;
    JavaStrings.PiecesAfterPrefix(a, Delimiter, b);
    JavaStrings.PiecesWithoutSeparator(b, Delimiter);
    JavaStrings.SplitSpec(line, Delimiter);
    assert Delimiter in line by {
      assert line[|a|] == Delimiter;
    }
  }

  /** Fields after the second are ignored: `a|b|rest` has `a` and `b` as its first
      two fields. */
  lemma ExtraFieldsIgnored(a: string, b: string, rest: string)
    requires Delimiter !in a && Delimiter !in b && b != ""
    ensures var fields := Fields(a + [Delimiter] + b + [Delimiter] + rest);
      |fields| >= 2 && fields[0] == a && fields[1] == b
  {
    var line := a + [Delimiter] + b + [Delimiter] + rest;
    JavaStrings.PiecesAfterPrefix(a, Delimiter, b + [Delimiter] + rest);
    JavaStrings.PiecesAfterPrefix(b, Delimiter, rest);
    assert line == a + [Delimiter] + (b + [Delimiter] + rest);
    var pieces := JavaStrings.Pieces(line, Delimiter);
    assert pieces == [a] + ([b] + JavaStrings.Pieces(rest, Delimiter));
    assert pieces[0] == a && pieces[1] == b;
    FieldsByPieces(line);
  }

  /** A line without a second field: the empty line, a line without the delimiter,
      and a line whose only delimiter is trailing (`a|`). */
  lemma TooFewFields(a: string)
    requires Delimiter !in a
    ensures |Fields("")| < 2
    ensures |Fields(a)| < 2
    ensures |Fields(a + [Delimiter])| < 2
  {
    JavaStrings.PiecesWithoutSeparator(a, Delimiter);
    JavaStrings.PiecesWithoutSeparator("", Delimiter);
    JavaStrings.PiecesAfterPrefix(a, Delimiter, "");
    assert a + [Delimiter] + "" == a + [Delimiter];
    FieldsByPieces("");
    FieldsByPieces(a);
    FieldsByPieces(a + [Delimiter]);
  }

  /** Two lines naming the same jar make construction fail at the second line
      rather than keep either entry. */
  lemma DuplicateJarRejected(a1: string, a2: string, b: string)
    requires Delimiter !in a1 && Delimiter !in a2 && Delimiter !in b && b != ""
    ensures New([a1 + [Delimiter] + b, a2 + [Delimiter] + b]) == Failure(DuplicateJar(1, b))
  {
    TwoFieldLine(a1, b);
    TwoFieldLine(a2, b);
    var lines := [a1 + [Delimiter] + b, a2 + [Delimiter] + b];
    var deps := ExtractDeps(lines);
    assert deps == [[a1, b], [a2, b]];
    assert deps[..1] == [[a1, b]];
    assert deps[..1][..0] == [];
    assert Collect(deps[..1]) == Success(map[b := a1]);
    assert Collect(deps) == Failure(DuplicateJar(1, b));
  }

  /** A manifest of the one line `a|b` maps `b` to `a` and nothing else. */
  lemma OneLineManifest(a: string, b: string)
    requires Delimiter !in a && Delimiter !in b && b != ""
    ensures New([a + [Delimiter] + b]) == Success(DependencyFilter(map[b := a]))
  {
    var lines := [a + [Delimiter] + b];
    TwoFieldLine(a, b);
    var deps := ExtractDeps(lines);
    assert deps[0] == [a, b];
    assert WellFormed(deps);
    var m := New(lines).value.jarToDep;
    assert forall jar :: jar in m ==> jar == b;
    assert m == map[b := a];
  }

  /** The manifest `libX|libx-1.2.jar` builds the map `libx-1.2.jar ↦ libX`. */
  lemma SingleEntryManifestParses()
    ensures New(["libX|libx-1.2.jar"]) == Success(DependencyFilter(map["libx-1.2.jar" := "libX"]))
  {
    OneLineManifest("libX", "libx-1.2.jar");
    assert "libX" + [Delimiter] + "libx-1.2.jar" == "libX|libx-1.2.jar";
  }

  /** With that manifest, of two jars in one directory only `libx-1.2.jar` is kept,
      together with any directory. */
  lemma SingleEntryManifestFilters(f: DependencyFilter)
    requires f == DependencyFilter(map["libx-1.2.jar" := "libX"])
    ensures
      var libx := Location("/repo/libx-1.2.jar", "libx-1.2.jar", false);
      var other := Location("/repo/other-3.0.jar", "other-3.0.jar", false);
      var classes := Location("/repo/classes", "classes", true);
      Apply(f, [libx, other, classes]) == [libx, classes]
  {
    var libx := Location("/repo/libx-1.2.jar", "libx-1.2.jar", false);
    var other := Location("/repo/other-3.0.jar", "other-3.0.jar", false);
    var classes := Location("/repo/classes", "classes", true);
    var paths := [libx, other, classes];
    var keep := KeepTest(f);
    assert keep(libx) && keep(classes);
    assert !keep(other) by {
      assert "other-3.0.jar"[0] != "libx-1.2.jar"[0];
    }
    assert Filter(keep, paths[2..]) == [classes] by {
      assert paths[2..][1..] == [];
    }
    assert Filter(keep, paths[1..]) == [classes] by {
      assert paths[1..][1..] == paths[2..];
    }
    assert Filter(keep, paths) == [libx, classes];
  }
}

=== FILE: java_strings.dfy ===
/** The string behaviour the core relies on: `String.split` around a
    single-character delimiter (the manifest's `|` and the class path's separator),
    and the code-point order of path strings, whose sign is that of Unix
    `Path.compareTo`. */
module JavaStrings {

  /** Every piece of `s` between occurrences of `sep`, empty pieces included; a string
      without `sep` is one piece. */
  function Pieces(s: string, sep: char): (r: seq<string>)
    ensures |r| >= 1
    ensures forall i :: 0 <= i < |r| ==> sep !in r[i]
  {
    if |s| == 0 then [""]
    else
      var rest := Pieces(s[1..], sep);
      if s[0] == sep then [""] + rest
      else [[s[0]] + rest[0]] + rest[1..]
  }

  /** The pieces glued back together with `sep` between neighbours. */
  function Join(parts: seq<string>, sep: char): string
  {
    if |parts| == 0 then ""
    else if |parts| == 1 then parts[0]
    else parts[0] + [sep] + Join(parts[1..], sep)
  }

  /** Splitting and joining again gives back the original string. */
  lemma {:induction false} JoinPieces(s: string, sep: char)
    ensures Join(Pieces(s, sep), sep) == s
  {
    if |s| > 0 {
      var rest := Pieces(s[1..], sep);
      JoinPieces(s[1..], sep);
      if s[0] == sep {
        assert Pieces(s, sep) == [""] + rest;
        assert ([""] + rest)[1..] == rest;
        assert s == [sep] + s[1..];
      } else if |rest| == 1 {
        assert s == [s[0]] + s[1..];
      } else {
        var r := [[s[0]] + rest[0]] + rest[1..];
        assert r[1..] == rest[1..];
        assert Join(rest, sep) == rest[0] + [sep] + Join(rest[1..], sep);
        assert s == [s[0]] + s[1..];
      }
    }
  }

  /** A delimiter-free prefix followed by the delimiter is the first piece. */
  lemma {:induction false} PiecesAfterPrefix(a: string, sep: char, rest: string)
    requires sep !in a
    ensures Pieces(a + [sep] + rest, sep) == [a] + Pieces(rest, sep)
  {
    var s := a + [sep] + rest;
    if |a| == 0 {
      assert s[1..] == rest;
    } else {
      assert s[1..] == a[1..] + [sep] + rest;
      PiecesAfterPrefix(a[1..], sep, rest);
      assert [s[0]] + a[1..] == a;
    }
  }

  /** A string without the delimiter is a single piece. */
  lemma {:induction false} PiecesWithoutSeparator(s: string, sep: char)
    requires sep !in s
    ensures Pieces(s, sep) == [s]
  {
    if |s| > 0 {
      PiecesWithoutSeparator(s[1..], sep);
      assert [s[0]] + s[1..] == s;
    }
  }

  /** Joining delimiter-free pieces and splitting again gives back the pieces. */
  lemma {:induction false} PiecesJoin(parts: seq<string>, sep: char)
    requires |parts| >= 1
    requires forall i :: 0 <= i < |parts| ==> sep !in parts[i]
    ensures Pieces(Join(parts, sep), sep) == parts
  {
    if |parts| == 1 {
      PiecesWithoutSeparator(parts[0], sep);
    } else {
      PiecesJoin(parts[1..], sep);
      PiecesAfterPrefix(parts[0], sep, Join(parts[1..], sep));
      assert [parts[0]] + parts[1..] == parts;
    }
  }

  /** `parts` without its trailing empty strings. */
  function DropTrailingEmpty(parts: seq<string>): seq<string>
  {
    if |parts| == 0 then []
    else if parts[|parts| - 1] == "" then DropTrailingEmpty(parts[..|parts| - 1])
    else parts
  }

  /** Dropping trailing empty strings keeps a prefix that does not end in an empty
      string, and removes only empty strings. */
  lemma {:induction false} DropTrailingEmptyIsPrefix(parts: seq<string>)
    ensures var r := DropTrailingEmpty(parts);
      && |r| <= |parts| && r == parts[..|r|]
      && (|r| > 0 ==> r[|r| - 1] != "")
      && (forall i :: |r| <= i < |parts| ==> parts[i] == "")
  {
    if |parts| > 0 && parts[|parts| - 1] == "" {
      var init := parts[..|parts| - 1];
      DropTrailingEmptyIsPrefix(init);
      var r := DropTrailingEmpty(init);
      assert init[..|r|] == parts[..|r|];
    }
  }

  /** `s.split(sep)` with Java's default limit 0: when `sep` occurs in `s` the pieces
      lose their trailing empty ones (so the result can be empty); when it does not
      occur the result is `s` alone, even for the empty string. */
  function Split(s: string, sep: char): seq<string>
  {
    if sep in s then DropTrailingEmpty(Pieces(s, sep)) else [s]
  }

  /** `Split` keeps a prefix of the raw pieces and drops only empty ones; when `sep`
      occurs it drops all trailing empty pieces, otherwise the string is its own
      single field. */
  lemma SplitSpec(s: string, sep: char)
    ensures var r := Split(s, sep); var pieces := Pieces(s, sep);
      && |r| <= |pieces| && r == pieces[..|r|]
      && (forall i :: |r| <= i < |pieces| ==> pieces[i] == "")
      && (sep in s && |r| > 0 ==> r[|r| - 1] != "")
      && (sep !in s ==> r == [s])
  {
    if sep in s {
      DropTrailingEmptyIsPrefix(Pieces(s, sep));
    } else {
      PiecesWithoutSeparator(s, sep);
    }
  }

  /** Code-point order: the difference of the first differing characters, or of
      the lengths when one string is a prefix of the other. Its sign is that of
      Unix `Path.compareTo`, which compares the UTF-8 bytes of the paths; Java's
      `String.compareTo` compares UTF-16 units and differs above U+FFFF. */
  function CompareLex(a: string, b: string): int
  {
    if |a| == 0 || |b| == 0 then |a| - |b|
    else if a[0] != b[0] then a[0] as int - b[0] as int
    else CompareLex(a[1..], b[1..])
  }

  /** Swapping the operands negates the comparison. */
  lemma {:induction false} CompareLexAntisymmetric(a: string, b: string)
    ensures CompareLex(a, b) == -CompareLex(b, a)
  {
    if |a| > 0 && |b| > 0 && a[0] == b[0] {
      CompareLexAntisymmetric(a[1..], b[1..]);
    }
  }

  /** Only equal strings compare as zero. */
  lemma {:induction false} CompareLexZero(a: string, b: string)
    ensures CompareLex(a, b) == 0 <==> a == b
  {
    if |a| > 0 && |b| > 0 && a[0] == b[0] {
      CompareLexZero(a[1..], b[1..]);
      assert a == [a[0]] + a[1..] && b == [b[0]] + b[1..];
    } else if |a| > 0 && |b| > 0 {
      assert a[0] != b[0];
      assert a != b;
    }
  }

  /** Being greater is transitive. */
  lemma {:induction false} CompareLexTransitive(a: string, b: string, c: string)
    requires CompareLex(a, b) > 0 && CompareLex(b, c) > 0
    ensures CompareLex(a, c) > 0
  {
    if |a| > 0 && |b| > 0 && |c| > 0 && a[0] == b[0] && b[0] == c[0] {
      CompareLexTransitive(a[1..], b[1..], c[1..]);
    }
  }
}

=== FILE: locations.dfy ===
/** A class-path location as the core sees it: the absolute path, its last name
    element (`Path.getFileName()`), and whether the file system reports it as a
    directory (`Files.isDirectory`). The same record stands for the `URL` that a
    provider hands to the class loader. */
module Locations {
  import JavaStrings
  import Sorting

  datatype Location = Location(path: string, fileName: string, isDirectory: bool)

  /** `Path`'s natural order (`Comparator.naturalOrder()`): the paths compared
      character by character, a proper prefix first. */
  function NaturalOrder(a: Location, b: Location): int
  {
    JavaStrings.CompareLex(a.path, b.path)
  }

  /** The natural order keeps the `Comparator` contract, so sorting by it yields
      a sorted result. */
  lemma NaturalOrderIsComparator()
    ensures Sorting.IsComparator(NaturalOrder)
  {
    forall x: Location, y: Location
      ensures Sorting.Sign(NaturalOrder(x, y)) == -Sorting.Sign(NaturalOrder(y, x))
    {
      JavaStrings.CompareLexAntisymmetric(x.path, y.path);
    }
    forall x: Location, y: Location, z: Location | NaturalOrder(x, y) > 0 && NaturalOrder(y, z) > 0
      ensures NaturalOrder(x, z) > 0
    {
      JavaStrings.CompareLexTransitive(x.path, y.path, z.path);
    }
    forall x: Location, y: Location, z: Location | NaturalOrder(x, y) == 0
      ensures Sorting.Sign(NaturalOrder(x, z)) == Sorting.Sign(NaturalOrder(y, z))
    {
      JavaStrings.CompareLexZero(x.path, y.path);
    }
  }
}

=== FILE: safe_class_loader.dfy ===
/** `SafeClassLoader`: a parent-last class loader. Names in `parentOnlyClasses` go
    to the parent alone; every other name is looked up locally first (classes
    already loaded, the bootstrap loader, the loader's own URLs) and reaches the
    parent only when that lookup throws `ClassNotFoundException`. Class objects are
    the type parameter `C`. */
module SafeClassLoader {
  import opened Wrappers
  import opened Locations
  import ClassPathProvider

  /** What one `loadClass` call produced: a class, `ClassNotFoundException`, or any
      other failure (a `LinkageError`, say), which the loader does not catch. */
  datatype Load<C> = Loaded(cls: C) | NotFound | Broken(reason: string)

  /** The two places a name can be looked up. */
  datatype Tier = LocalTier | ParentTier

  /** The answer to one `loadClass` call and the tiers asked, in the order asked. */
  datatype Resolution<C> = Resolution(result: Load<C>, consulted: seq<Tier>)

  /** `urls` are the loader's own class path. `local` is the `URLClassLoader`
      lookup over them, whose parent is `null` (already-loaded classes, then the
      bootstrap loader, then the URLs); `parent` is the loader given as parent. */
  datatype SafeClassLoader<C> = SafeClassLoader(
    urls: seq<Location>,
    local: string -> Load<C>,
    parent: string -> Load<C>,
    parentOnlyClasses: set<string>)

  /** The answer a tier gives for `name`. */
  function Ask<C>(l: SafeClassLoader<C>, tier: Tier, name: string): Load<C> {
    match tier
    case LocalTier => l.local(name)
    case ParentTier => l.parent(name)
  }

  /** The overridden `loadClass(name, resolve)`. The answer is the last tier's; the
      local tier is asked iff the name is not parent-only, and then first; the
      parent is asked iff the name is parent-only or the local tier did not find
      it. */
  function LoadClass<C>(l: SafeClassLoader<C>, name: string): (r: Resolution<C>)
    ensures 1 <= |r.consulted| <= 2 && r.result == Ask(l, r.consulted[|r.consulted| - 1], name)
    ensures LocalTier in r.consulted <==> name !in l.parentOnlyClasses
    ensures LocalTier in r.consulted ==> r.consulted[0] == LocalTier
    ensures ParentTier in r.consulted <==> name in l.parentOnlyClasses || l.local(name).NotFound?
    ensures |r.consulted| == 2 ==> r.consulted[0] != r.consulted[1]
  {
    if name in l.parentOnlyClasses then Resolution(l.parent(name), [ParentTier])
    else match l.local(name)
      case NotFound => Resolution(l.parent(name), [LocalTier, ParentTier])
      case found => Resolution(found, [LocalTier])
  }

  /** For a parent-only name the answer is the parent's, success or failure, and
      the local tier cannot influence it: two loaders that differ only in their
      local tier answer alike. */
  lemma ParentOnlyIgnoresLocal<C>(l1: SafeClassLoader<C>, l2: SafeClassLoader<C>, name: string)
    requires l1.parent == l2.parent && l1.parentOnlyClasses == l2.parentOnlyClasses
    requires name in l1.parentOnlyClasses
    ensures LoadClass(l1, name) == LoadClass(l2, name)
    ensures LoadClass(l1, name).result == l1.parent(name)
  {
  }

  /** For any other name the local tier resolves, the local answer wins: two loaders
      that differ only in their parent answer alike, without asking it. */
  lemma LocalShadowsParent<C>(l1: SafeClassLoader<C>, l2: SafeClassLoader<C>, name: string)
    requires l1.local == l2.local && l1.parentOnlyClasses == l2.parentOnlyClasses
    requires name !in l1.parentOnlyClasses && !l1.local(name).NotFound?
    ensures LoadClass(l1, name) == LoadClass(l2, name)
    ensures LoadClass(l1, name).result == l1.local(name)
    ensures ParentTier !in LoadClass(l1, name).consulted
  {
  }

  /** A name that is not parent-only fails to resolve iff both tiers fail to find
      it; when the local tier does not find it the answer is the parent's. */
  lemma NotFoundIffBothTiersMiss<C>(l: SafeClassLoader<C>, name: string)
    requires name !in l.parentOnlyClasses
    ensures LoadClass(l, name).result.NotFound? <==> l.local(name).NotFound? && l.parent(name).NotFound?
    ensures l.local(name).NotFound? ==> LoadClass(l, name).result == l.parent(name)
  {
  }

  /** `new SafeClassLoader(urls, parent, parentOnlyClasses)`: `urlLookup` is the
      `URLClassLoader` lookup as a function of its URLs, and the stream of names is
      collected into a set. */
  function FromUrls<C>(
    urls: seq<Location>, urlLookup: (seq<Location>, string) -> Load<C>,
    parent: string -> Load<C>, parentOnlyClasses: seq<string>): (l: SafeClassLoader<C>)
    ensures l.urls == urls && l.parent == parent
    ensures forall name :: l.local(name) == urlLookup(urls, name)
    ensures forall name :: name in l.parentOnlyClasses <==> name in parentOnlyClasses
  {
    SafeClassLoader(urls, name => urlLookup(urls, name), parent, set name | name in parentOnlyClasses)
  }

  /** Only which names occur in the parent-only stream matters, not their order or
      how often they repeat. */
  lemma ParentOnlyStreamIsASet<C>(
    urls: seq<Location>, urlLookup: (seq<Location>, string) -> Load<C>,
    parent: string -> Load<C>, xs: seq<string>, ys: seq<string>, name: string)
    requires forall x :: x in xs <==> x in ys
    ensures LoadClass(FromUrls(urls, urlLookup, parent, xs), name)
         == LoadClass(FromUrls(urls, urlLookup, parent, ys), name)
  {
  }

  /** A list of partial results concatenated in order; the first failure is the
      result of the whole, as with a stream whose mapping throws. */
  function ConcatAll<X, E>(results: seq<Result<seq<X>, E>>): (r: Result<seq<X>, E>)
    ensures r.Success? <==> forall i :: 0 <= i < |results| ==> results[i].Success?
  {
    if |results| == 0 then Success([])
    else
      var first :- results[0];
      var rest :- ConcatAll(results[1..]);
      Success(first + rest)
  }

  /** Concatenation distributes over appending two result lists that both succeed. */
  lemma {:induction false} ConcatAllAppend<X, E>(xs: seq<Result<seq<X>, E>>, ys: seq<Result<seq<X>, E>>)
    requires ConcatAll(xs).Success? && ConcatAll(ys).Success?
    ensures ConcatAll(xs + ys) == Success(ConcatAll(xs).value + ConcatAll(ys).value)
  {
    if |xs| > 0 {
      assert (xs + ys)[0] == xs[0];
      assert (xs + ys)[1..] == xs[1..] + ys;
      ConcatAllAppend(xs[1..], ys);
      var first := xs[0].value;
      assert first + (ConcatAll(xs[1..]).value + ConcatAll(ys).value)
          == (first + ConcatAll(xs[1..]).value) + ConcatAll(ys).value;
    } else {
      assert xs + ys == ys;
      assert ConcatAll(xs).value + ConcatAll(ys).value == ConcatAll(ys).value;
    }
  }

  /** Each provider's `getClassPath()`, in argument order. */
  function ClassPaths(providers: seq<ClassPathProvider.Provider>, host: ClassPathProvider.Host)
    : (r: seq<Result<seq<Location>, ClassPathProvider.ProviderError>>)
    ensures |r| == |providers|
    ensures forall i :: 0 <= i < |providers| ==> r[i] == ClassPathProvider.GetClassPath(providers[i], host)
  {
    seq(|providers|, i requires 0 <= i < |providers| => ClassPathProvider.GetClassPath(providers[i], host))
  }

  /** The providers' class paths concatenated in argument order; the first provider
      that fails makes the whole construction fail. */
  function ProvidersClassPath(providers: seq<ClassPathProvider.Provider>, host: ClassPathProvider.Host)
    : (r: Result<seq<Location>, ClassPathProvider.ProviderError>)
    ensures r.Success? <==>
      forall i :: 0 <= i < |providers| ==> ClassPathProvider.GetClassPath(providers[i], host).Success?
  {
    ConcatAll(ClassPaths(providers, host))
  }

  /** Concatenation distributes over the provider list: the URLs of `ps + qs` are
      those of `ps` followed by those of `qs`. */
  lemma ProvidersClassPathAppend(
    ps: seq<ClassPathProvider.Provider>, qs: seq<ClassPathProvider.Provider>, host: ClassPathProvider.Host)
    requires ProvidersClassPath(ps, host).Success? && ProvidersClassPath(qs, host).Success?
    ensures ProvidersClassPath(ps + qs, host)
         == Success(ProvidersClassPath(ps, host).value + ProvidersClassPath(qs, host).value)
  {
    assert ClassPaths(ps + qs, host) == ClassPaths(ps, host) + ClassPaths(qs, host);
    ConcatAllAppend(ClassPaths(ps, host), ClassPaths(qs, host));
  }

  /** One provider alone contributes exactly its own class path. */
  lemma SingleProviderClassPath(p: ClassPathProvider.Provider, host: ClassPathProvider.Host)
    ensures ProvidersClassPath([p], host) == ClassPathProvider.GetClassPath(p, host)
  {
    var single := ClassPaths([p], host);
    assert single == [ClassPathProvider.GetClassPath(p, host)];
    assert single[1..] == [];
    assert ConcatAll(single[1..]) == Success([]);
    if single[0].Success? {
      assert single[0].value + [] == single[0].value;
    }
  }

  /** `new SafeClassLoader(parentOnlyClasses, providers...)`: the URLs are the
      providers' class paths in argument order and the parent is the thread's
      context class loader at construction time. */
  function FromProviders<C>(
    parentOnlyClasses: seq<string>, providers: seq<ClassPathProvider.Provider>,
    host: ClassPathProvider.Host, urlLookup: (seq<Location>, string) -> Load<C>,
    contextLoader: string -> Load<C>): (r: Result<SafeClassLoader<C>, ClassPathProvider.ProviderError>)
    ensures r.Success? <==> ProvidersClassPath(providers, host).Success?
    ensures r.Success? ==> r.value.urls == ProvidersClassPath(providers, host).value
    ensures r.Success? ==> r.value.parent == contextLoader
    ensures r.Success? ==> forall name :: name in r.value.parentOnlyClasses <==> name in parentOnlyClasses
  {
    var urls :- ProvidersClassPath(providers, host);
    Success(FromUrls(urls, urlLookup, contextLoader, parentOnlyClasses))
  }

  /** `new SafeClassLoader(providers...)`: no parent-only names, so every name is
      looked up locally first. */
  function FromProvidersOnly<C>(
    providers: seq<ClassPathProvider.Provider>, host: ClassPathProvider.Host,
    urlLookup: (seq<Location>, string) -> Load<C>, contextLoader: string -> Load<C>)
    : (r: Result<SafeClassLoader<C>, ClassPathProvider.ProviderError>)
    ensures r.Success? <==> ProvidersClassPath(providers, host).Success?
    ensures r.Success? ==> r.value.urls == ProvidersClassPath(providers, host).value
    ensures r.Success? ==> r.value.parentOnlyClasses == {}
    ensures r.Success? ==> forall name :: LoadClass(r.value, name).consulted[0] == LocalTier
  {
    FromProviders([], providers, host, urlLookup, contextLoader)
  }

  /** A shared contract type listed as parent-only resolves to the parent's class
      even when the loader's own URLs define a different class of that name. */
  lemma SharedContractComesFromParent(urls: seq<Location>, urlLookup: (seq<Location>, string) -> Load<int>)
    requires urlLookup(urls, "shared.Contract") == Loaded(26)
    ensures var parent := (name: string) => if name == "shared.Contract" then Loaded(25) else NotFound;
      LoadClass(FromUrls(urls, urlLookup, parent, ["shared.Contract"]), "shared.Contract")
        == Resolution(Loaded(25), [ParentTier])
  {
  }
}

=== FILE: safe_class_loader_wrapper.dfy ===
/** `SafeClassLoaderWrapper`: runs an operation with the wrapped loader installed
    as the thread's context class loader and puts the previous one back afterwards.
    The previous loader is kept in the wrapper's own `ThreadLocal` (`outsider`),
    one slot per wrapper and thread, not a stack. One thread's state is modelled;
    loaders are the type parameter `L`. */
module SafeClassLoaderWrapper {
  import opened Wrappers
  import SafeClassLoader

  /** A wrapper: `id` stands for its identity, which selects its `ThreadLocal`
      slot (every `new SafeClassLoaderWrapper` has its own), and `loader` is the
      loader it installs. */
  datatype Wrapper<L> = Wrapper(id: nat, loader: L)

  /** One thread: its context class loader and, per wrapper id, what that wrapper's
      `outsider` slot holds on this thread (absent: never set). */
  datatype ThreadState<L> = ThreadState(context: L, outsider: map<nat, L>)

  /** How an operation ended: with a value or by throwing. */
  datatype Outcome<V, E> = Returned(value: V) | Thrown(error: E)

  /** The operations a `Callable` passed to `doSafely` may perform, as far as the
      context class loader is concerned. */
  datatype Op<V, E, !L> =
    | Return(value: V)
    | Throw(error: E)
      /** Opaque work that may read the context class loader. */
    | Step(run: L -> Outcome<V, E>)
      /** `Thread.currentThread().setContextClassLoader(loader)`, then `next`. */
    | SetContext(loader: L, next: Op<V, E, L>)
      /** `first`; if it returns, its value is dropped and `next` runs. */
    | Then(first: Op<V, E, L>, next: Op<V, E, L>)
      /** `wrapper.doSafely(() -> body)`. */
    | DoSafely(wrapper: Wrapper<L>, body: Op<V, E, L>)

  /** An operation's outcome and the thread's state afterwards. */
  datatype Run<V, E, L> = Run(outcome: Outcome<V, E>, state: ThreadState<L>)

  /** The state on entry to the body of `w.doSafely`: the current context loader
      saved in `w`'s slot, `w`'s loader installed. */
  function Enter<L>(t: ThreadState<L>, w: Wrapper<L>): (u: ThreadState<L>)
    ensures u.context == w.loader
    ensures w.id in u.outsider && u.outsider[w.id] == t.context
    ensures forall id :: id != w.id ==> (id in u.outsider <==> id in t.outsider)
    ensures forall id :: id in t.outsider && id != w.id ==> u.outsider[id] == t.outsider[id]
  {
    ThreadState(w.loader, t.outsider[w.id := t.context])
  }

  /** Runs `op` on thread state `t`. For `doSafely` the exit step (the `finally`)
      reads the context loader back from the wrapper's slot, which every run only
      ever adds to, so the slot written on entry is still there. */
  function Eval<V, E, L>(t: ThreadState<L>, op: Op<V, E, L>): (r: Run<V, E, L>)
    ensures t.outsider.Keys <= r.state.outsider.Keys
    decreases op
  {
    match op
    case Return(v) => Run(Returned(v), t)
    case Throw(e) => Run(Thrown(e), t)
    case Step(run) => Run(run(t.context), t)
    case SetContext(l, next) => Eval(t.(context := l), next)
    case Then(first, next) =>
      var r1 := Eval(t, first);
      if r1.outcome.Thrown? then r1 else Eval(r1.state, next)
    case DoSafely(w, body) =>
      var r1 := Eval(Enter(t, w), body);
      Run(r1.outcome, r1.state.(context := r1.state.outsider[w.id]))
  }

  /** `op` contains a `doSafely` on the wrapper with identity `id`. */
  predicate Uses<V, E, L>(op: Op<V, E, L>, id: nat) {
    match op
    case Return(_) => false
    case Throw(_) => false
    case Step(_) => false
    case SetContext(_, next) => Uses(next, id)
    case Then(first, next) => Uses(first, id) || Uses(next, id)
    case DoSafely(w, body) => w.id == id || Uses(body, id)
  }

  /** No `doSafely` in `op` runs, at any depth, inside another `doSafely` on the
      same wrapper. */
  predicate NoReentry<V, E, L>(op: Op<V, E, L>) {
    match op
    case Return(_) => true
    case Throw(_) => true
    case Step(_) => true
    case SetContext(_, next) => NoReentry(next)
    case Then(first, next) => NoReentry(first) && NoReentry(next)
    case DoSafely(w, body) => !Uses(body, w.id) && NoReentry(body)
  }

  /** An operation that never enters wrapper `id` leaves that wrapper's slot as it
      found it. */
  lemma {:induction false} SlotUntouched<V, E, L>(t: ThreadState<L>, op: Op<V, E, L>, id: nat)
    requires !Uses(op, id)
    ensures id in Eval(t, op).state.outsider <==> id in t.outsider
    ensures id in t.outsider ==> Eval(t, op).state.outsider[id] == t.outsider[id]
    decreases op
  {
    match op
    case Return(_) =>
    case Throw(_) =>
    case Step(_) =>
    case SetContext(l, next) =>
      SlotUntouched(t.(context := l), next, id);
    case Then(first, next) =>
      SlotUntouched(t, first, id);
      SlotUntouched(Eval(t, first).state, next, id);
    case DoSafely(w, body) =>
      SlotUntouched(Enter(t, w), body, id);
  }

  /** `doSafely` on a wrapper the body does not enter again restores the context
      loader it found, whether the body returned or threw, and hands back the
      body's outcome unchanged; other wrappers may be nested inside to any depth. */
  lemma DoSafelyRestores<V, E, L>(t: ThreadState<L>, w: Wrapper<L>, body: Op<V, E, L>)
    requires !Uses(body, w.id)
    ensures Eval(t, DoSafely(w, body)).state.context == t.context
    ensures Eval(t, DoSafely(w, body)).outcome == Eval(Enter(t, w), body).outcome
  {
    SlotUntouched(Enter(t, w), body, w.id);
  }

  /** While the operation runs it sees the wrapper's loader as the context loader. */
  lemma BodySeesWrapperLoader<V, E, L>(t: ThreadState<L>, w: Wrapper<L>, run: L -> Outcome<V, E>)
    ensures Eval(t, DoSafely(w, Step(run))).outcome == run(w.loader)
    ensures Eval(t, DoSafely(w, Step(run))).state.context == t.context
  {
  }

  /** A thrown exception leaves `doSafely` as it is, after the context loader has
      been restored. */
  lemma ThrowRestores<V, E, L>(t: ThreadState<L>, w: Wrapper<L>, e: E)
    ensures var body: Op<V, E, L> := Throw(e);
      Eval(t, DoSafely(w, body)) == Run(Thrown(e), ThreadState(t.context, t.outsider[w.id := t.context]))
  {
  }

  /** Scopes of two distinct wrappers nest correctly: the inner exit restores the
      outer wrapper's loader, which later work in the outer scope sees, and the
      outer exit restores the loader found at the start. */
  lemma NestedDistinctWrappers<V, E, L>(
    t: ThreadState<L>, outer: Wrapper<L>, inner: Wrapper<L>, body: Op<V, E, L>, run: L -> Outcome<V, E>)
    requires outer.id != inner.id
    requires !Uses(body, outer.id) && !Uses(body, inner.id)
    requires Eval(Enter(Enter(t, outer), inner), body).outcome.Returned?
    ensures var op := DoSafely(outer, Then(DoSafely(inner, body), Step(run)));
      && Eval(t, op).outcome == run(outer.loader)
      && Eval(t, op).state.context == t.context
  {
    var t1 := Enter(t, outer);
    DoSafelyRestores(t1, inner, body);
    var innerOp := DoSafely(inner, body);
    assert !Uses(Then(innerOp, Step(run)), outer.id);
    DoSafelyRestores(t, outer, Then(innerOp, Step(run)));
  }

  /** Re-entering the same wrapper overwrites its single slot: the inner call saves
      the wrapper's own loader there, so the outer exit installs that loader rather
      than the one in force before the outer call. */
  lemma ReentryKeepsWrapperLoader<V, E, L>(t: ThreadState<L>, w: Wrapper<L>, body: Op<V, E, L>)
    requires !Uses(body, w.id)
    ensures Eval(t, DoSafely(w, DoSafely(w, body))).state.context == w.loader
    ensures t.context != w.loader ==> Eval(t, DoSafely(w, DoSafely(w, body))).state.context != t.context
  {
    var t1 := Enter(t, w);
    var t2 := Enter(t1, w);
    SlotUntouched(t2, body, w.id);
    assert t2.outsider[w.id] == w.loader;
  }

  /** A stack-discipline evaluator: each `doSafely` keeps the loader it replaced
      in a value of its own, so scopes restore in reverse order of entry. Returns
      the outcome and the context loader afterwards. */
  function EvalStacked<V, E, L>(context: L, op: Op<V, E, L>): (Outcome<V, E>, L)
    decreases op
  {
    match op
    case Return(v) => (Returned(v), context)
    case Throw(e) => (Thrown(e), context)
    case Step(run) => (run(context), context)
    case SetContext(l, next) => EvalStacked(l, next)
    case Then(first, next) =>
      var (o1, c1) := EvalStacked(context, first);
      if o1.Thrown? then (o1, c1) else EvalStacked(c1, next)
    case DoSafely(w, body) =>
      var (o1, _) := EvalStacked(w.loader, body);
      (o1, context)
  }

  /** With the stack discipline every `doSafely` restores the loader it found, for
      any body, re-entrant or not. */
  lemma StackedAlwaysRestores<V, E, L>(context: L, w: Wrapper<L>, body: Op<V, E, L>)
    ensures EvalStacked(context, DoSafely(w, body)).1 == context
    ensures EvalStacked(context, DoSafely(w, body)).0 == EvalStacked(w.loader, body).0
  {
  }

  /** Without re-entrant use of a wrapper the single-slot code behaves exactly like
      the stack discipline: same outcome, same context loader afterwards. */
  lemma {:induction false} AgreesWithStackedWithoutReentry<V, E, L>(t: ThreadState<L>, op: Op<V, E, L>)
    requires NoReentry(op)
    ensures Eval(t, op).outcome == EvalStacked(t.context, op).0
    ensures Eval(t, op).state.context == EvalStacked(t.context, op).1
    decreases op
  {
    match op
    case Return(_) =>
    case Throw(_) =>
    case Step(_) =>
    case SetContext(l, next) =>
      AgreesWithStackedWithoutReentry(t.(context := l), next);
    case Then(first, next) =>
      AgreesWithStackedWithoutReentry(t, first);
      AgreesWithStackedWithoutReentry(Eval(t, first).state, next);
    case DoSafely(w, body) =>
      AgreesWithStackedWithoutReentry(Enter(t, w), body);
      DoSafelyRestores(t, w, body);
  }

  /** Directly nested re-entry is where the two part: the nested call on the same
      wrapper leaves the wrapper's loader installed, the stack discipline restores
      the loader found before the outer call. */
  lemma ReentryDivergesFromStacked<V, E, L>(t: ThreadState<L>, w: Wrapper<L>, body: Op<V, E, L>)
    requires !Uses(body, w.id) && t.context != w.loader
    ensures var op := DoSafely(w, DoSafely(w, body));
      && Eval(t, op).state.context == w.loader
      && EvalStacked(t.context, op).1 == t.context
      && Eval(t, op).state.context != EvalStacked(t.context, op).1
  {
    ReentryKeepsWrapperLoader(t, w, body);
    StackedAlwaysRestores(t.context, w, DoSafely(w, body));
  }

  /** Why `callStatic` can fail. */
  datatype CallError<E> =
      /** `loader.loadClass(className)` threw `ClassNotFoundException`. */
    | ClassNotFound(className: string)
      /** `loadClass` threw something else. */
    | LoadFailed(reason: string)
      /** `getMethod` threw `NoSuchMethodException`. */
    | NoSuchMethod(methodName: string)
      /** `getMethod` threw something else (a `NoClassDefFoundError` for a type in
          the signature the loader cannot find, a `SecurityException`), which reaches
          the caller as it is. */
    | MethodLookupFailed(reason: string)
      /** The invoked method threw `cause`; `invoke` wraps it in an
          `InvocationTargetException`, which reaches the caller still wrapped. */
    | InvocationTarget(cause: E)
      /** `invoke` itself threw before or instead of running the method body, and
          that exception reaches the caller as it is. */
    | InvokeFailed(reason: string)

  /** What one `Class.getMethod` produced: the method, `NoSuchMethodException`, or
      any other failure. */
  datatype MethodLookup<M> = Found(member: M) | Missing | LookupThrew(reason: string)

  /** What one `Method.invoke` produced. */
  datatype Invocation<V, E> =
    | Completed(value: V)
      /** The method ran and threw `cause`. */
    | TargetThrew(cause: E)
      /** `invoke` threw on its own account: `NullPointerException` for an instance
          method (the receiver is `null`), `ExceptionInInitializerError` from a
          failing static initializer, `IllegalAccessException` or
          `IllegalArgumentException`. */
    | Refused(reason: string)

  /** The reflective calls `callStatic` makes: `loadClass` on the wrapper's loader,
      `getMethod` on the class, and `invoke` with a `null`
      receiver, which runs with the context loader then in force. */
  datatype Reflection<!C, !M, !V, E, !L> = Reflection(
    loadClass: (L, string) -> SafeClassLoader.Load<C>,
    getMethod: (C, string, seq<string>) -> MethodLookup<M>,
    invoke: (M, seq<V>, L) -> Invocation<V, E>)

  /** The lookup-and-invoke chain inside `callStatic`'s `Callable`. */
  function ReflectiveCall<C, M, V, E, L>(
    reflect: Reflection<C, M, V, E, L>, loader: L, className: string, methodName: string,
    parameterTypes: seq<string>, args: seq<V>, context: L): Outcome<V, CallError<E>>
  {
    match reflect.loadClass(loader, className)
    case NotFound => Thrown(ClassNotFound(className))
    case Broken(reason) => Thrown(LoadFailed(reason))
    case Loaded(c) =>
      match reflect.getMethod(c, methodName, parameterTypes)
      case Missing => Thrown(NoSuchMethod(methodName))
      case LookupThrew(reason) => Thrown(MethodLookupFailed(reason))
      case Found(m) =>
        match reflect.invoke(m, args, context)
        case Completed(v) => Returned(v)
        case TargetThrew(e) => Thrown(InvocationTarget(e))
        case Refused(reason) => Thrown(InvokeFailed(reason))
  }

  /** `o` is what a caller of `callStatic` sees when the class is looked up in
      `loader` and the method runs with `loader` as context loader: a missing class
      or method is reported as such, any other failure of `loadClass`, of `getMethod`
      or of `invoke` itself arrives as it was thrown, the method's result comes
      back, and an exception from the method arrives wrapped, not unwrapped. */
  ghost predicate Reports<C, M, V, E, L>(
    reflect: Reflection<C, M, V, E, L>, loader: L, className: string, methodName: string,
    parameterTypes: seq<string>, args: seq<V>, o: Outcome<V, CallError<E>>)
  {
    var load := reflect.loadClass(loader, className);
    && (load.NotFound? ==> o == Thrown(ClassNotFound(className)))
    && (load.Broken? ==> o == Thrown(LoadFailed(load.reason)))
    && (load.Loaded? ==>
          var found := reflect.getMethod(load.cls, methodName, parameterTypes);
          && (found.Missing? ==> o == Thrown(NoSuchMethod(methodName)))
          && (found.LookupThrew? ==> o == Thrown(MethodLookupFailed(found.reason)))
          && (found.Found? ==>
                var call := reflect.invoke(found.member, args, loader);
                && (call.Completed? ==> o == Returned(call.value))
                && (call.TargetThrew? ==> o == Thrown(InvocationTarget(call.cause)))
                && (call.Refused? ==> o == Thrown(InvokeFailed(call.reason)))))
  }

  /** `callStatic(className, methodName, parameterTypes, args)`: the class is
      loaded through the wrapper's loader and the method runs with that loader as
      context loader; whatever happens, the caller's context loader is back
      afterwards. */
  function CallStatic<C, M, V, E, L>(
    t: ThreadState<L>, w: Wrapper<L>, reflect: Reflection<C, M, V, E, L>,
    className: string, methodName: string, parameterTypes: seq<string>, args: seq<V>)
    : (r: Run<V, CallError<E>, L>)
    ensures r.state.context == t.context
    ensures Reports(reflect, w.loader, className, methodName, parameterTypes, args, r.outcome)
  {
    var run := context => ReflectiveCall(reflect, w.loader, className, methodName, parameterTypes, args, context);
    BodySeesWrapperLoader(t, w, run);
    Eval(t, DoSafely(w, Step(run)))
  }

  /** `callStatic(clazz, ...)`: the class is looked up by its name in the wrapper's
      loader, which need not give back `clazz` itself; the caller's context loader
      is back afterwards. */
  function CallStaticByClass<C, M, V, E, L>(
    t: ThreadState<L>, w: Wrapper<L>, reflect: Reflection<C, M, V, E, L>, nameOf: C -> string,
    clazz: C, methodName: string, parameterTypes: seq<string>, args: seq<V>)
    : (r: Run<V, CallError<E>, L>)
    ensures r.state.context == t.context
    ensures Reports(reflect, w.loader, nameOf(clazz), methodName, parameterTypes, args, r.outcome)
  {
    CallStatic(t, w, reflect, nameOf(clazz), methodName, parameterTypes, args)
  }

  /** A static method that, once it has run `run`, calls back into the same wrapper
      re-enters it while the wrapper's loader is installed: the callback's scope
      records that loader in the slot, so the `callStatic` scope exits with the
      wrapper's loader still installed and the caller's is not restored. */
  lemma CallbackIntoSameWrapper<V, E, L>(
    t: ThreadState<L>, w: Wrapper<L>, run: L -> Outcome<V, E>, body: Op<V, E, L>)
    requires !Uses(body, w.id)
    requires run(w.loader).Returned?
    ensures Eval(t, DoSafely(w, Then(Step(run), DoSafely(w, body)))).state.context == w.loader
    ensures t.context != w.loader ==>
      Eval(t, DoSafely(w, Then(Step(run), DoSafely(w, body)))).state.context != t.context
  {
    var t1 := Enter(t, w);
    var t2 := Enter(t1, w);
    SlotUntouched(t2, body, w.id);
    assert t2.outsider[w.id] == w.loader;
    var callback: Op<V, E, L> := DoSafely(w, body);
    var inner := Eval(t1, callback);
    assert inner.state.outsider[w.id] == w.loader;
    assert Eval(t1, Step(run)) == Run(run(w.loader), t1);
    assert Eval(t1, Then(Step(run), callback)) == inner;
  }
}

=== FILE: seqs.dfy ===
/** Order-preserving filtering of sequences, the shape of Java's `Stream.filter`
    on an ordered stream. */
module Seqs {

  /** The elements of `s` that satisfy `p`, in their original order. */
  function Filter<T(!new)>(p: T -> bool, s: seq<T>): (r: seq<T>)
    ensures |r| <= |s|
    ensures forall i :: 0 <= i < |r| ==> p(r[i])
    ensures forall x :: x in r <==> x in s && p(x)
  {
    if |s| == 0 then []
    else if p(s[0]) then [s[0]] + Filter(p, s[1..])
    else Filter(p, s[1..])
  }

  /** The positions of `s` from `from` on whose elements satisfy `p`, in increasing
      order. */
  function KeptPositions<T>(p: T -> bool, s: seq<T>, from: nat): (idx: seq<nat>)
    requires from <= |s|
    ensures forall k :: 0 <= k < |idx| ==> from <= idx[k] < |s|
    decreases |s| - from
  {
    if from == |s| then []
    else
      var rest := KeptPositions(p, s, from + 1);
      if p(s[from]) then [from] + rest else rest
  }

  /** The kept positions strictly increase. */
  lemma {:induction false} KeptPositionsIncrease<T>(p: T -> bool, s: seq<T>, from: nat)
    requires from <= |s|
    ensures forall k, l :: 0 <= k < l < |KeptPositions(p, s, from)| ==>
      KeptPositions(p, s, from)[k] < KeptPositions(p, s, from)[l]
    decreases |s| - from
  {
    if from < |s| {
      KeptPositionsIncrease(p, s, from + 1);
      var rest := KeptPositions(p, s, from + 1);
      var idx := KeptPositions(p, s, from);
      if p(s[from]) {
        assert idx == [from] + rest;
        forall k, l | 0 <= k < l < |idx|
          ensures idx[k] < idx[l]
        {
          assert idx[l] == rest[l - 1];
          assert from + 1 <= rest[l - 1];
          if k > 0 {
            assert idx[k] == rest[k - 1];
            assert rest[k - 1] < rest[l - 1];
          } else {
            assert idx[k] == from;
          }
        }
      } else {
        assert idx == rest;
      }
    }
  }

  /** A position from `from` on is kept iff its element passes. */
  lemma {:induction false} KeptPositionsExact<T>(p: T -> bool, s: seq<T>, from: nat)
    requires from <= |s|
    ensures forall i :: from <= i < |s| ==> (i in KeptPositions(p, s, from) <==> p(s[i]))
    decreases |s| - from
  {
    if from < |s| {
      KeptPositionsExact(p, s, from + 1);
    }
  }

  /** The kept positions pick out, one by one, what `Filter` keeps of the suffix
      from `from`. */
  lemma {:induction false} KeptPositionsPick<T(!new)>(p: T -> bool, s: seq<T>, from: nat)
    requires from <= |s|
    ensures var idx := KeptPositions(p, s, from);
      && |idx| == |Filter(p, s[from..])|
      && (forall k :: 0 <= k < |idx| ==> Filter(p, s[from..])[k] == s[idx[k]])
    decreases |s| - from
  {
    if from < |s| {
      KeptPositionsPick(p, s, from + 1);
      var rest := KeptPositions(p, s, from + 1);
      var idx := KeptPositions(p, s, from);
      var tail := s[from..];
      assert tail[0] == s[from] && tail[1..] == s[from + 1..];
      var g := Filter(p, s[from + 1..]);
      if p(s[from]) {
        assert idx == [from] + rest;
        var f := Filter(p, tail);
        assert f == [s[from]] + g;
        forall k | 0 <= k < |idx|
          ensures f[k] == s[idx[k]]
        {
          if k > 0 {
            assert f[k] == g[k - 1];
            assert idx[k] == rest[k - 1];
          }
        }
      } else {
        assert idx == rest;
        assert Filter(p, tail) == g;
      }
    }
  }

  /** Filtering keeps every element that satisfies `p` with its full multiplicity
      and drops every other one. */
  lemma {:induction false} FilterMultiplicity<T(!new)>(p: T -> bool, s: seq<T>, x: T)
    ensures multiset(Filter(p, s))[x] == if p(x) then multiset(s)[x] else 0
  {
    if |s| > 0 {
      FilterMultiplicity(p, s[1..], x);
      assert s == [s[0]] + s[1..];
      assert multiset(s) == multiset{s[0]} + multiset(s[1..]);
      if p(s[0]) {
        assert multiset(Filter(p, s)) == multiset{s[0]} + multiset(Filter(p, s[1..]));
      }
    }
  }

  /** Filtering twice with the same predicate is filtering once. */
  lemma {:induction false} FilterIdempotent<T(!new)>(p: T -> bool, s: seq<T>)
    ensures Filter(p, Filter(p, s)) == Filter(p, s)
  {
    if |s| > 0 {
      FilterIdempotent(p, s[1..]);
      if p(s[0]) {
        var r := [s[0]] + Filter(p, s[1..]);
        assert r[0] == s[0] && r[1..] == Filter(p, s[1..]);
      }
    }
  }

  /** Filtering by `p` first loses nothing that `q` keeps when `q` implies `p`. */
  lemma {:induction false} FilterAbsorbed<T(!new)>(p: T -> bool, q: T -> bool, s: seq<T>)
    requires forall x :: q(x) ==> p(x)
    ensures Filter(q, Filter(p, s)) == Filter(q, s)
  {
    if |s| > 0 {
      FilterAbsorbed(p, q, s[1..]);
      if p(s[0]) {
        var r := [s[0]] + Filter(p, s[1..]);
        assert r[0] == s[0] && r[1..] == Filter(p, s[1..]);
      }
    }
  }
}

=== FILE: sorting.dfy ===
/** Sorting a sequence by a Java-style comparator, the shape of `Stream.sorted`. */
module Sorting {

  function Sign(x: int): int {
    if x < 0 then -1 else if x > 0 then 1 else 0
  }

  /** The three clauses `java.util.Comparator.compare` promises its callers. */
  ghost predicate IsComparator<T(!new)>(cmp: (T, T) -> int) {
    && (forall x, y :: Sign(cmp(x, y)) == -Sign(cmp(y, x)))
    && (forall x, y, z :: cmp(x, y) > 0 && cmp(y, z) > 0 ==> cmp(x, z) > 0)
    && (forall x, y, z :: cmp(x, y) == 0 ==> Sign(cmp(x, z)) == Sign(cmp(y, z)))
  }

  /** Every element is no greater than every later one. */
  ghost predicate Sorted<T>(s: seq<T>, cmp: (T, T) -> int) {
    forall i, j :: 0 <= i < j < |s| ==> cmp(s[i], s[j]) <= 0
  }

  /** "Not greater than" is transitive for any comparator that keeps the contract. */
  lemma NotGreaterTransitive<T(!new)>(cmp: (T, T) -> int, x: T, y: T, z: T)
    requires IsComparator(cmp)
    requires cmp(x, y) <= 0 && cmp(y, z) <= 0
    ensures cmp(x, z) <= 0
  {
    if cmp(x, y) == 0 {
      assert Sign(cmp(x, z)) == Sign(cmp(y, z));
    } else if cmp(y, z) == 0 {
      assert Sign(cmp(y, x)) == Sign(cmp(z, x));
      assert Sign(cmp(x, y)) == -Sign(cmp(y, x));
      assert Sign(cmp(x, z)) == -Sign(cmp(z, x));
    } else {
      assert Sign(cmp(x, y)) == -Sign(cmp(y, x));
      assert Sign(cmp(y, z)) == -Sign(cmp(z, y));
      assert cmp(z, y) > 0 && cmp(y, x) > 0;
      assert Sign(cmp(x, z)) == -Sign(cmp(z, x));
    }
  }

  /** `s` with `x` placed before the first element it is not greater than; `x` goes
      ahead of the elements equal to it, which came after it in the input. */
  function Insert<T>(x: T, s: seq<T>, cmp: (T, T) -> int): (r: seq<T>)
    ensures multiset(r) == multiset(s) + multiset{x}
  {
    if |s| == 0 then [x]
    else if cmp(x, s[0]) <= 0 then [x] + s
    else
      assert s == [s[0]] + s[1..];
      [s[0]] + Insert(x, s[1..], cmp)
  }

  /** Stable insertion sort of `s` by `cmp`; the result keeps every element of `s`
      with its multiplicity. */
  function Sort<T>(s: seq<T>, cmp: (T, T) -> int): (r: seq<T>)
    ensures multiset(r) == multiset(s)
  {
    if |s| == 0 then []
    else
      assert s == [s[0]] + s[1..];
      Insert(s[0], Sort(s[1..], cmp), cmp)
  }

  /** A sorted sequence stays sorted under a new head no greater than any element. */
  lemma ConsSorted<T>(a: T, t: seq<T>, cmp: (T, T) -> int)
    requires Sorted(t, cmp)
    requires forall k :: 0 <= k < |t| ==> cmp(a, t[k]) <= 0
    ensures Sorted([a] + t, cmp)
  {
    var r := [a] + t;
    forall i, j | 0 <= i < j < |r|
      ensures cmp(r[i], r[j]) <= 0
    {
      assert r[j] == t[j - 1];
      if i > 0 {
        assert r[i] == t[i - 1];
      }
    }
  }

  /** An element greater than the head of a sorted sequence is no smaller than it
      once moved past it: the head stays below everything inserted after it. */
  lemma HeadBelowInsert<T(!new)>(x: T, s: seq<T>, cmp: (T, T) -> int)
    requires IsComparator(cmp)
    requires Sorted(s, cmp)
    requires |s| > 0 && cmp(x, s[0]) > 0
    ensures forall k :: 0 <= k < |Insert(x, s[1..], cmp)| ==> cmp(s[0], Insert(x, s[1..], cmp)[k]) <= 0
  {
    var tail := Insert(x, s[1..], cmp);
    assert Sign(cmp(x, s[0])) == -Sign(cmp(s[0], x));
    forall k | 0 <= k < |tail|
      ensures cmp(s[0], tail[k]) <= 0
    {
      var y := tail[k];
      assert y in multiset(tail);
      if y != x {
        assert y in multiset(s[1..]);
        var j :| 0 <= j < |s[1..]| && s[1..][j] == y;
        assert s[j + 1] == y;
      }
    }
  }

  /** Inserting into a sorted sequence keeps it sorted. */
  lemma {:induction false} InsertSorted<T(!new)>(x: T, s: seq<T>, cmp: (T, T) -> int)
    requires IsComparator(cmp)
    requires Sorted(s, cmp)
    ensures Sorted(Insert(x, s, cmp), cmp)
  {
    if |s| > 0 {
      if cmp(x, s[0]) <= 0 {
        forall k | 0 <= k < |s|
          ensures cmp(x, s[k]) <= 0
        {
          if k > 0 {
            NotGreaterTransitive(cmp, x, s[0], s[k]);
          }
        }
        ConsSorted(x, s, cmp);
      } else {
        assert Sorted(s[1..], cmp);
        InsertSorted(x, s[1..], cmp);
        HeadBelowInsert(x, s, cmp);
        ConsSorted(s[0], Insert(x, s[1..], cmp), cmp);
      }
    }
  }

  /** The result of `Sort` is sorted whenever `cmp` keeps the comparator contract. */
  lemma {:induction false} SortSorted<T(!new)>(s: seq<T>, cmp: (T, T) -> int)
    requires IsComparator(cmp)
    ensures Sorted(Sort(s, cmp), cmp)
  {
    if |s| > 0 {
      SortSorted(s[1..], cmp);
      InsertSorted(s[0], Sort(s[1..], cmp), cmp);
    }
  }
}

=== FILE: wrappers.dfy ===
/** Failure-carrying datatypes shared by the other modules: `Option` stands for a
    Java reference that may be null, `Result` for a value or the exception raised
    while computing it. */
module Wrappers {

  datatype Option<+T> = None | Some(value: T)

  datatype Result<+T, +E> = Success(value: T) | Failure(error: E) {

    predicate IsFailure() {
      Failure?
    }

    function PropagateFailure<U>(): Result<U, E>
      requires Failure?
    {
      Failure(error)
    }

    function Extract(): T
      requires Success?
    {
      value
    }
  }
}
